=== FILE: README.md ===
# APEX deployment orchestrator: a Dafny model of its decision core

`apex_deploy.py` brings up the APEX architecture in six fixed phases:
foundation, orchestration, skills, intelligence, apex_config and monitoring.
Before any phase runs, it checks that the required command-line tools are
installed. The script itself is mostly process spawning, printing and JSON
writes. Under that plumbing is a small deterministic core, and this project
models that core and proves properties about it. Every external call becomes
an input value:

- **Prerequisite gate** (`prerequisites.dfy`, module `Prerequisites`). Each
  `<tool> --version` probe either responds, exits non-zero
  (`CalledProcessError`), is not found (`FileNotFoundError`), or raises some
  other `OSError` such as `PermissionError`. The gate catches only the first
  two. It collects the label of every caught failure, in declaration order,
  and passes only when nothing is missing. Any other `OSError` escapes the
  loop at that tool, and, since the gate is called outside `deploy_all`'s
  `try`, out of `main` as well. `CheckPrerequisites` is the source's probing
  loop, verified against the functional definition `Gate`.
- **Foundation classification** (`convergence.dfy`, module `Convergence`).
  The result of `docker run` is classified as `Created`, `AlreadyPresent` or
  `Failed(stderr)`:
  - `AlreadyPresent` is chosen when the captured stderr contains the bytes
    `already in use`. Python's `in` on bytes is modelled by `Contains`.
  - Exceptions that the handler does not catch, such as a missing docker
    binary, are not classified. They propagate and make the phase raise.
  - The `Failed` branch decodes stderr strictly as UTF-8 in order to print
    it. A stderr that is not well-formed UTF-8 (`Utf8`, after table 3-7 of
    the Unicode Standard) raises `UnicodeDecodeError` inside the handler, so
    the phase raises too. `Handled` says when the handler returns normally.
- **Phase sequencer** (`sequencer.dfy`, module `Sequencer`). This is a
  generic state machine:
  - Before any phase, the gate decides: a failed gate leads to `GateRejected`.
  - Otherwise it moves through `Running(i)`.
  - It ends in `Completed`, or in `Aborted(i)` at the first phase that
    raises.
- **Topology assembler** (`topology.dfy`, module `Topology`). `Assemble` is a
  pure function from the registry to the descriptor, with one typed field per
  layer:
  - Each endpoint is `scheme + "://localhost:" + decimal(port) + path`.
  - Each credential name maps to the literal `"configured"`.
  - A missing repository or port key corresponds to the source's `KeyError`,
    so `Assemble` returns `None`.
- **Entry points** (`deploy.dfy`, module `Deploy`). `DeployAll` wires these
  parts together in the order of `deploy_all`. `Main` turns its outcome into
  the process exit status.
- **Configuration** (`settings.dfy`, module `Settings`). It holds the
  repositories, credential names, port registry and declared phase list built
  in `__init__`. The registry is generic in the type of the secret values.
  The descriptor type has no field of that type, so it cannot hold a secret.
  `CredentialOpacity` also proves that the descriptor depends only on the
  credential names.

In two places the code does not do what its own messages suggest. The model
follows the code both times:

- A foundation launch that is classified `Failed`, with stderr that decodes
  as UTF-8, does not abort the sequence. The handler prints the error and
  the phase returns normally (see `FailedLaunchDoesNotAbort`), even though
  the phase then announces the foundation layer as deployed.
- The skills manifest declares `total_skills` as 50 while its categories list
  12 names. No equality between the two is modelled.

The summary's port lookups are unguarded: a missing key is a `KeyError` that
makes `deploy_all` return false (`SummaryResult`).

The source lists the five credential names literally in the descriptor. The
model derives them from the registry's credential keys instead.
`SourceCredentials` shows that the two give the same map for the registry the
script is built with.

## Model

| member | source | states |
|---|---|---|
| Prerequisites.CheckPrerequisites | apex_deploy.py:74-102 | the loop computes exactly `Gate`: it stops only at the first uncaught exception, and otherwise probes every tool; `missing` lists the caught failures' labels; the verdict is true iff `missing` is empty iff every probe responded |
| Prerequisites.Gate | apex_deploy.py:86-102 | crashes iff some probe raises an exception other than the two caught ones, at the first such probe; otherwise returns the labels of the failed probes, and true iff there are none iff every probe responded |
| Prerequisites.FirstUncaught | apex_deploy.py:87-94 | the first probe at or after a position whose exception is not caught, with none before it, or the end when there is none |
| Prerequisites.GatePassesIffAllResponded | apex_deploy.py:86-102 | the gate passes, neither crashing nor finding a tool missing, exactly when every probe responded |
| Prerequisites.NoneMissingIffAllResponded | apex_deploy.py:92-97 | nothing is listed missing exactly when no probe failed with one of the two caught exceptions |
| Prerequisites.EveryFailureListed | apex_deploy.py:86-97 | every failed tool's label is listed, not only the first, and every listed label belongs to a failed tool |
| Prerequisites.MissingInDeclarationOrder | apex_deploy.py:78-97 | the missing labels are those of failed tools, taken at strictly increasing positions of the declared tool order |
| Prerequisites.FailedBelow | apex_deploy.py:86-94 | the failed indices below n: all of them, each one failed, in strictly increasing order |
| Convergence.ContainsIff | apex_deploy.py:124 | the byte-substring search succeeds exactly when the pattern occurs at some offset of stderr |
| Convergence.Classify | apex_deploy.py:120-129 | success gives Created; a CalledProcessError whose stderr contains `already in use` gives AlreadyPresent; any other CalledProcessError gives Failed carrying stderr; only exceptions the handler does not catch go unclassified |
| Convergence.SequenceLength | apex_deploy.py:127 | the first well-formed UTF-8 sequence has 1 to 4 bytes, starts with an ASCII byte or a lead byte C2..F4, and is 1 for ASCII; which sequences it accepts is pinned by `EncodingAccepted` and `AcceptedIsEncoding` |
| Convergence.EncodingInRanges | apex_deploy.py:127 | the bytes of each scalar value's UTF-8 encoding lie in the lead and continuation ranges the strict decoder checks, including the narrowed second-byte ranges after E0, ED, F0 and F4 |
| Convergence.EncodingAccepted | apex_deploy.py:127 | the decoder accepts the encoding of every scalar value as one whole sequence of its length, whatever follows |
| Convergence.AcceptedIsEncoding | apex_deploy.py:127 | conversely, every sequence the decoder accepts is the encoding of a scalar value, so it accepts no overlong form, surrogate or value above U+10FFFF |
| Convergence.EncodedIsUtf8 | apex_deploy.py:127 | the encoding of any text of scalar values decodes strictly, so multibyte stderr leaves the handler returning normally |
| Convergence.TwoByteTextDecodes | apex_deploy.py:127 | the two bytes C3 A9 (U+00E9) decode |
| Convergence.Utf8Concat | apex_deploy.py:127 | strictly decodable bytes followed by strictly decodable bytes stay decodable |
| Convergence.AsciiIsUtf8 | apex_deploy.py:127 | ASCII-only stderr always decodes |
| Convergence.BadLeadByte | apex_deploy.py:127 | stderr starting with a byte that cannot begin a UTF-8 sequence never decodes, whatever follows |
| Convergence.UndecodableFailureRaises | apex_deploy.py:122-127 | a CalledProcessError without the marker and with undecodable stderr is classified Failed, yet the handler raises while printing it |
| Convergence.InvalidByteRaises | apex_deploy.py:122-127 | a stderr of the single byte 0xFF makes the handler raise |
| Convergence.RerunIsAlreadyPresent | apex_deploy.py:123-125 | a launch whose stderr carries the marker anywhere is classified AlreadyPresent, so a re-run is safe |
| Sequencer.Drive | apex_deploy.py:312-318 | from Running(i) the machine ends Completed iff phases i.. all return, otherwise Aborted at a raising phase with all earlier ones returned; the phases that ran are i, i+1, ... in order, and none after the abort |
| Sequencer.Sequence | apex_deploy.py:307-328 | a failed gate runs no phase; otherwise the run ends Completed iff every phase returns, or Aborted at a raising phase; phase k is the k-th to run |
| Sequencer.AbortAtFirstRaise | apex_deploy.py:312-328 | if phase k is the first phase to raise, the run is Aborted(k) and exactly phases 0..k ran |
| Settings.PhasesFollowDeclaration | apex_deploy.py:53-60 | the six phases run in the declared order, name by name, each exactly once |
| Topology.DecimalCanonical | apex_deploy.py:188 | a port renders as a non-empty digit string without a leading zero |
| Topology.DecimalRoundTrip | apex_deploy.py:188 | reading back the rendered port gives the port |
| Topology.CanonicalRoundTrip | apex_deploy.py:188 | rendering the value of a canonical digit string gives that string back, so each port has exactly one rendering |
| Topology.Url | apex_deploy.py:232-240 | the URL splits into scheme, `://localhost:`, a canonical decimal that reads back as the port, and the path |
| Topology.LocatesOnlyUrl | apex_deploy.py:232-240 | any string that splits that way is the URL built from that scheme, port and path |
| Topology.UrlInjective | apex_deploy.py:232-240 | different ports never give the same endpoint |
| Topology.LayersOf | apex_deploy.py:184-223 | each layer names the repositories registered under its keys (apex; memory_nexus then memory_trinity; orchestrator; engine; intelligence then forensics); the gateway is http on apex_api, the graph endpoints are bolt on neo4j_bolt and http on neo4j_http |
| Topology.EndpointsOf | apex_deploy.py:231-237 | the five API endpoints are http URLs on the gateway port with their fixed paths |
| Topology.DashboardsOf | apex_deploy.py:238-241 | the dashboards are http URLs on the grafana and prometheus ports |
| Topology.CredentialsOf | apex_deploy.py:224-230 | one entry per declared credential name and no other, each the literal `configured` |
| Topology.Assemble | apex_deploy.py:177-242 | a descriptor exists iff every looked-up repository and port key is present; then it has version 1.0.0 and mode supreme, every layer names its registered repositories, every URL is derived from the port registry, and the credentials record presence only |
| Topology.CredentialOpacity | apex_deploy.py:224-230 | registries that differ only in secret values, even in their type, give the same descriptor |
| Topology.SourceGatewayEndpoints | apex_deploy.py:232-233 | for the built-in registry the gateway is `http://localhost:8000` and health is `http://localhost:8000/api/v1/health` |
| Topology.SourceGraphEndpoints | apex_deploy.py:218-222 | for the built-in registry the graph endpoints are `bolt://localhost:7687` and `http://localhost:7474` |
| Topology.SourceDashboards | apex_deploy.py:238-241 | for the built-in registry grafana is `http://localhost:3000` and prometheus is `http://localhost:9090` |
| Topology.SourceCredentials | apex_deploy.py:224-230 | for the built-in registry the credentials are exactly the five declared names, each `configured` |
| Deploy.FoundationResult | apex_deploy.py:104-129 | the foundation phase returns normally iff both graph port keys exist and the handler returns normally: the launch succeeded, or its error carries the marker, or its stderr decodes as UTF-8; Failed alone does not make it raise |
| Deploy.DeployAll | apex_deploy.py:303-328 | the gate's verdict is `Gate`'s; phases run only when every probe responded; an uncaught probe exception escapes `deploy_all`; otherwise it exits with status 1 iff a tool is missing, and returns true iff the sequence completed; a descriptor exists iff the configuration phase ran and its lookups and write succeeded |
| Deploy.GateBlocksEveryPhase | apex_deploy.py:306-308 | one tool that does not respond stops the run before any phase runs or any container is launched: an uncaught probe exception escapes, a caught failure exits with status 1, and `main` ends with status 1 either way |
| Deploy.PhasesRunInOrder | apex_deploy.py:312-318 | at most six phases run, and the k-th to run is phase k of the declared order |
| Deploy.AbortOnFirstRaise | apex_deploy.py:312-328 | the first raising phase k ends the run as Aborted(k) with phases 0..k run and `deploy_all` returning false |
| Deploy.SucceedsIffAllPhasesOk | apex_deploy.py:306-328 | `deploy_all` returns true iff every tool responded and all six phases returned normally |
| Deploy.FailedLaunchDoesNotAbort | apex_deploy.py:123-129 | a launch failing for another reason, with decodable stderr, is reported as Failed with its stderr, and the next phase still runs |
| Deploy.LaunchDoesNotSteer | apex_deploy.py:120-129 | whichever launch outcome the handler returns normally from, the run takes the same course and ends the same way |
| Deploy.ResolvedPhasesOkIff | apex_deploy.py:104-264 | with every key present, all phases return iff the foundation handler returns normally and both file writes succeed |
| Deploy.ResolvedRunSucceedsIff | apex_deploy.py:303-334 | with every key present, `main` exits 0 iff every tool responds, the foundation handler returns normally and both writes succeed |
| Deploy.SourceRunSucceedsIff | apex_deploy.py:22-60 | the built-in registry has every key the run looks up, so only the environment can make `main` exit non-zero |
| Deploy.UncaughtLaunchStopsRun | apex_deploy.py:120-127 | an exception the foundation handler does not catch, or an undecodable stderr in its Failed branch, aborts in phase 0, no later phase runs, and `main` exits 1 |
| Deploy.SummaryFollowsPhases | apex_deploy.py:284-285 | the summary's port lookups cannot fail once all six phases have returned |
| Deploy.Main | apex_deploy.py:330-334 | the exit status is 0 or 1, and 0 exactly when `deploy_all` returned true; an exception escaping it ends the process with status 1 |

## Left out

- Process execution, tool versions and docker semantics: each probe, the
  container launch and each file write is an input outcome.
- Standard output: the banner, the progress lines and the summary text. This
  includes the message at apex_deploy.py:262, which is not an f-string.
  Because it is not interpolated, the monitoring phase looks up only the
  grafana port.
- JSON serialisation and the two file writes. A write is modelled only as a
  phase result that may raise.
- The skills manifest contents and its `total_skills` figure (50 declared,
  12 listed). They are data the code never checks.
- The orchestration and intelligence phases, which only print, and the
  unused `asyncio` import.
- The concrete secret strings. Credentials are modelled by name only, using
  the `Withheld` placeholder.
- Ports are natural numbers. A negative port, which Python would render with
  a minus sign, is not modelled.
- Printing itself raising an I/O error inside the `try` block.

=== FILE: convergence.dfy ===
/** The foundation phase's convergence action: `docker run` of the graph
    database container, and the classification of its result. */
module Convergence {
  import opened Wrappers

  newtype byte = x: int | 0 <= x < 256

  /** The bytes of an ASCII string. */
  function Ascii(s: string): (b: seq<byte>)
    requires forall i :: 0 <= i < |s| ==> s[i] as int < 128
    ensures |b| == |s|
  {
    seq(|s|, i requires 0 <= i < |s| => s[i] as int as byte)
  }

  /** The marker the container runtime writes when the container name is
      taken: the desired end state already holds. */
  const AlreadyInUse: seq<byte> := Ascii("already in use")

  /** `pat` occurs in `s` starting at index `i`. */
  ghost predicate OccursAt(s: seq<byte>, pat: seq<byte>, i: int) {
    0 <= i && i + |pat| <= |s| && s[i..i + |pat|] == pat
  }

  /** Python's `pat in s` on byte strings. */
  function Contains(s: seq<byte>, pat: seq<byte>): (found: bool)
    decreases |s|
  {
    |pat| <= |s| && (s[..|pat|] == pat || Contains(s[1..], pat))
  }

  /** The search finds `pat` exactly when it occurs somewhere in `s`. */
  lemma {:induction false} ContainsIff(s: seq<byte>, pat: seq<byte>)
    ensures Contains(s, pat) <==> exists i :: OccursAt(s, pat, i)
    decreases |s|
  {
    if |pat| > |s| {
      assert forall i :: !OccursAt(s, pat, i);
    } else if s[..|pat|] == pat {
      assert OccursAt(s, pat, 0);
    } else {
      var t := s[1..];
      ContainsIff(t, pat);
      if Contains(t, pat) {
        var i :| OccursAt(t, pat, i);
        assert s[i + 1..i + 1 + |pat|] == t[i..i + |pat|];
        assert OccursAt(s, pat, i + 1);
      } else {
        forall i | OccursAt(s, pat, i)
          ensures false
        {
          assert i != 0;
          assert t[i - 1..i - 1 + |pat|] == s[i..i + |pat|];
          assert OccursAt(t, pat, i - 1);
        }
      }
    }
  }

  // ---------------------------------------------------------------------
  // Strict UTF-8, as `bytes.decode()` checks it: the well-formed byte
  // sequences of table 3-7 of the Unicode Standard (no overlong forms, no
  // surrogates, nothing above U+10FFFF).

  predicate InRange(x: byte, lo: byte, hi: byte) {
    lo <= x <= hi
  }

  /** The length of the well-formed sequence `b` starts with, or 0 when it
      starts with none. */
  function SequenceLength(b: seq<byte>): (n: nat)
    ensures n <= |b| && n <= 4
    ensures |b| > 0 && b[0] < 0x80 ==> n == 1
    ensures n > 0 ==> |b| > 0 && (b[0] < 0x80 || 0xC2 <= b[0] <= 0xF4)
  {
    if |b| == 0 then 0
    else
      var x := b[0];
      if x < 0x80 then 1
      else if 0xC2 <= x <= 0xDF then
        if |b| >= 2 && InRange(b[1], 0x80, 0xBF) then 2 else 0
      else if 0xE0 <= x <= 0xEF then
        var lo: byte := if x == 0xE0 then 0xA0 else 0x80;
        var hi: byte := if x == 0xED then 0x9F else 0xBF;
        if |b| >= 3 && InRange(b[1], lo, hi) && InRange(b[2], 0x80, 0xBF) then 3 else 0
      else if 0xF0 <= x <= 0xF4 then
        var lo: byte := if x == 0xF0 then 0x90 else 0x80;
        var hi: byte := if x == 0xF4 then 0x8F else 0xBF;
        if |b| >= 4 && InRange(b[1], lo, hi) && InRange(b[2], 0x80, 0xBF) && InRange(b[3], 0x80, 0xBF)
        then 4 else 0
      else 0
  }

  /** `b` is a run of non-empty pieces, the length of each piece being
      `step` of what is left. */
  predicate Splits(b: seq<byte>, step: seq<byte> -> nat)
    decreases |b|
  {
    |b| == 0 || (0 < step(b) <= |b| && Splits(b[step(b)..], step))
  }

  /** `b` splits into well-formed sequences: strict decoding succeeds. */
  predicate Utf8(b: seq<byte>) {
    Splits(b, SequenceLength)
  }

  /** A step that only looks at its own piece: appending to the input never
      changes it. */
  ghost predicate PrefixStable(step: seq<byte> -> nat) {
    forall x: seq<byte>, y: seq<byte> :: 0 < step(x) <= |x| ==> step(x + y) == step(x)
  }

  /** Runs of such pieces concatenate. */
  lemma {:induction false} SplitsConcat(a: seq<byte>, c: seq<byte>, step: seq<byte> -> nat)
    requires PrefixStable(step)
    requires Splits(a, step) && Splits(c, step)
    ensures Splits(a + c, step)
    decreases |a|
  {
    if |a| > 0 {
      var n := step(a);
      assert step(a + c) == n;
      SplitsConcat(a[n..], c, step);
      assert (a + c)[n..] == a[n..] + c;
    } else {
      assert a + c == c;
    }
  }

  /** The first sequence only looks at its own bytes, so appending never
      changes it. */
  lemma SequenceLengthPrefix(a: seq<byte>, c: seq<byte>)
    requires SequenceLength(a) > 0
    ensures SequenceLength(a + c) == SequenceLength(a)
  {
    var ac := a + c;
    assert ac[0] == a[0];
    if |a| >= 2 { assert ac[1] == a[1]; }
    if |a| >= 3 { assert ac[2] == a[2]; }
    if |a| >= 4 { assert ac[3] == a[3]; }
  }

  /** Well-formed text concatenated with well-formed text is well formed. */
  lemma Utf8Concat(a: seq<byte>, c: seq<byte>)
    requires Utf8(a) && Utf8(c)
    ensures Utf8(a + c)
  {
    forall x: seq<byte>, y: seq<byte> | 0 < SequenceLength(x) <= |x|
      ensures SequenceLength(x + y) == SequenceLength(x)
    {
      SequenceLengthPrefix(x, y);
    }
    SplitsConcat(a, c, SequenceLength);
  }

  /** ASCII text is well-formed UTF-8. */
  lemma {:induction false} AsciiIsUtf8(b: seq<byte>)
    requires forall i :: 0 <= i < |b| ==> b[i] < 0x80
    ensures Utf8(b)
    decreases |b|
  {
    if |b| > 0 {
      AsciiIsUtf8(b[1..]);
    }
  }

  /** A byte that cannot start a sequence (0x80-0xC1, 0xF5-0xFF) makes
      strict decoding fail, whatever follows. */
  lemma BadLeadByte(b: seq<byte>)
    requires |b| > 0 && 0x80 <= b[0] && !(0xC2 <= b[0] <= 0xF4)
    ensures !Utf8(b)
  {
  }

  // ---------------------------------------------------------------------
  // The encoder of table 3-6 of the Unicode Standard, written independently
  // of the decoder above: the sequences `SequenceLength` accepts are exactly
  // the encodings of the Unicode scalar values.

  /** A code point that is not a surrogate and at most U+10FFFF. */
  predicate IsScalar(cp: int) {
    0 <= cp < 0x11_0000 && !(0xD800 <= cp <= 0xDFFF)
  }

  /** The UTF-8 encoding of one scalar value. */
  function EncodeScalar(cp: int): (b: seq<byte>)
    requires IsScalar(cp)
    ensures 1 <= |b| <= 4
  {
    if cp < 0x80 then [cp as byte]
    else if cp < 0x800 then [(0xC0 + cp / 64) as byte, (0x80 + cp % 64) as byte]
    else if cp < 0x1_0000 then
      [(0xE0 + cp / 4096) as byte, (0x80 + cp / 64 % 64) as byte, (0x80 + cp % 64) as byte]
    else
      [(0xF0 + cp / 262144) as byte, (0x80 + cp / 4096 % 64) as byte,
       (0x80 + cp / 64 % 64) as byte, (0x80 + cp % 64) as byte]
  }

  /** The bytes of an encoding fall in the ranges of table 3-7. */
  lemma EncodingInRanges(cp: int)
    requires IsScalar(cp)
    ensures var e := EncodeScalar(cp);
            && (|e| == 1 ==> e[0] < 0x80)
            && (|e| == 2 ==> 0xC2 <= e[0] <= 0xDF && 0x80 <= e[1] <= 0xBF)
            && (|e| == 3 ==>
                  && 0xE0 <= e[0] <= 0xEF && 0x80 <= e[1] <= 0xBF && 0x80 <= e[2] <= 0xBF
                  && (e[0] == 0xE0 ==> 0xA0 <= e[1])
                  && (e[0] == 0xED ==> e[1] <= 0x9F))
            && (|e| == 4 ==>
                  && 0xF0 <= e[0] <= 0xF4 && 0x80 <= e[1] <= 0xBF
                  && 0x80 <= e[2] <= 0xBF && 0x80 <= e[3] <= 0xBF
                  && (e[0] == 0xF0 ==> 0x90 <= e[1])
                  && (e[0] == 0xF4 ==> e[1] <= 0x8F))
  {
    if 0x800 <= cp < 0x1_0000 {
      ThreeByteDigits(cp);
    } else if 0x1_0000 <= cp {
      FourByteDigits(cp);
    }
  }

  /** The base-64 digits of a three-byte scalar value. */
  lemma ThreeByteDigits(cp: int)
    requires 0x800 <= cp < 0x1_0000 && !(0xD800 <= cp <= 0xDFFF)
    ensures 0 <= cp / 4096 < 16
    ensures cp / 4096 == 0 ==> 0x20 <= cp / 64 % 64
    ensures cp / 4096 == 13 ==> cp / 64 % 64 < 0x20
  {
    var q, r := cp / 4096, cp % 4096;
    DivModUnique(cp, q * 64 + r / 64, r % 64, 64);
    DivModUnique(q * 64 + r / 64, q, r / 64, 64);
  }

  /** The base-64 digits of a four-byte scalar value. */
  lemma FourByteDigits(cp: int)
    requires 0x1_0000 <= cp < 0x11_0000
    ensures 0 <= cp / 262144 < 5
    ensures cp / 262144 == 0 ==> 0x10 <= cp / 4096 % 64
    ensures cp / 262144 == 4 ==> cp / 4096 % 64 < 0x10
  {
    var q, r := cp / 262144, cp % 262144;
    DivModUnique(cp, q * 64 + r / 4096, r % 4096, 4096);
    DivModUnique(q * 64 + r / 4096, q, r / 4096, 64);
  }

  /** Every scalar value's encoding is accepted as one whole sequence,
      whatever follows it. */
  lemma EncodingAccepted(cp: int, rest: seq<byte>)
    requires IsScalar(cp)
    ensures SequenceLength(EncodeScalar(cp) + rest) == |EncodeScalar(cp)|
  {
    var e := EncodeScalar(cp);
    EncodingInRanges(cp);
    var b := e + rest;
    assert forall i :: 0 <= i < |e| ==> b[i] == e[i];
  }

  /** Encoded text: the concatenated encodings of a sequence of scalar
      values. */
  function EncodeAll(cps: seq<int>): (b: seq<byte>)
    requires forall i :: 0 <= i < |cps| ==> IsScalar(cps[i])
    ensures |cps| <= |b| <= 4 * |cps|
  {
    if |cps| == 0 then [] else EncodeScalar(cps[0]) + EncodeAll(cps[1..])
  }

  /** Encoded text always decodes strictly. */
  lemma {:induction false} EncodedIsUtf8(cps: seq<int>)
    requires forall i :: 0 <= i < |cps| ==> IsScalar(cps[i])
    ensures Utf8(EncodeAll(cps))
  {
    if |cps| > 0 {
      var e := EncodeScalar(cps[0]);
      var b := EncodeAll(cps);
      EncodedIsUtf8(cps[1..]);
      EncodingAccepted(cps[0], EncodeAll(cps[1..]));
      assert b[|e|..] == EncodeAll(cps[1..]);
    }
  }

  /** The scalar value of an accepted sequence of length `n`. */
  function DecodeScalar(b: seq<byte>, n: nat): (cp: int)
    requires 0 < n == SequenceLength(b)
  {
    var x := b[0] as int;
    if n == 1 then x
    else if n == 2 then (x - 0xC0) * 64 + (b[1] as int - 0x80)
    else if n == 3 then (x - 0xE0) * 4096 + (b[1] as int - 0x80) * 64 + (b[2] as int - 0x80)
    else (x - 0xF0) * 262144 + (b[1] as int - 0x80) * 4096 + (b[2] as int - 0x80) * 64 + (b[3] as int - 0x80)
  }

  /** Conversely, every accepted sequence is the encoding of a scalar
      value: the decoder accepts nothing else. */
  lemma AcceptedIsEncoding(b: seq<byte>)
    requires SequenceLength(b) > 0
    ensures var n := SequenceLength(b);
            IsScalar(DecodeScalar(b, n)) && EncodeScalar(DecodeScalar(b, n)) == b[..n]
  {
    var n := SequenceLength(b);
    if n == 2 {
      AcceptedTwoBytes(b);
    } else if n == 3 {
      AcceptedThreeBytes(b);
    } else if n == 4 {
      AcceptedFourBytes(b);
    }
  }

  /** The converse, one sequence length at a time. */
  lemma AcceptedTwoBytes(b: seq<byte>)
    requires SequenceLength(b) == 2
    ensures IsScalar(DecodeScalar(b, 2)) && EncodeScalar(DecodeScalar(b, 2)) == b[..2]
  {
    AcceptedTwo(b[0] as int, b[1] as int);
  }

  lemma AcceptedThreeBytes(b: seq<byte>)
    requires SequenceLength(b) == 3
    ensures IsScalar(DecodeScalar(b, 3)) && EncodeScalar(DecodeScalar(b, 3)) == b[..3]
  {
    AcceptedThree(b[0] as int, b[1] as int, b[2] as int);
  }

  lemma AcceptedFourBytes(b: seq<byte>)
    requires SequenceLength(b) == 4
    ensures IsScalar(DecodeScalar(b, 4)) && EncodeScalar(DecodeScalar(b, 4)) == b[..4]
  {
    AcceptedFour(b[0] as int, b[1] as int, b[2] as int, b[3] as int);
  }

  lemma AcceptedTwo(x: int, y: int)
    requires 0xC2 <= x <= 0xDF && 0x80 <= y <= 0xBF
    ensures var cp := (x - 0xC0) * 64 + (y - 0x80);
            0x80 <= cp < 0x800 && cp / 64 == x - 0xC0 && cp % 64 == y - 0x80
  {
  }

  lemma AcceptedThree(x: int, y: int, z: int)
    requires 0xE0 <= x <= 0xEF && 0x80 <= y <= 0xBF && 0x80 <= z <= 0xBF
    requires x == 0xE0 ==> 0xA0 <= y
    requires x == 0xED ==> y <= 0x9F
    ensures var cp := (x - 0xE0) * 4096 + (y - 0x80) * 64 + (z - 0x80);
            && 0x800 <= cp < 0x1_0000 && !(0xD800 <= cp <= 0xDFFF)
            && cp / 4096 == x - 0xE0 && cp / 64 % 64 == y - 0x80 && cp % 64 == z - 0x80
  {
  }

  lemma AcceptedFour(x: int, y: int, z: int, w: int)
    requires 0xF0 <= x <= 0xF4 && 0x80 <= y <= 0xBF && 0x80 <= z <= 0xBF && 0x80 <= w <= 0xBF
    requires x == 0xF0 ==> 0x90 <= y
    requires x == 0xF4 ==> y <= 0x8F
    ensures var cp := (x - 0xF0) * 262144 + (y - 0x80) * 4096 + (z - 0x80) * 64 + (w - 0x80);
            && 0x1_0000 <= cp < 0x11_0000
            && cp / 262144 == x - 0xF0 && cp / 4096 % 64 == y - 0x80
            && cp / 64 % 64 == z - 0x80 && cp % 64 == w - 0x80
  {
    var low := (z - 0x80) * 64 + (w - 0x80);
    var mid := (y - 0x80) * 4096 + low;
    var cp := (x - 0xF0) * 262144 + mid;
    DivModUnique(cp, x - 0xF0, mid, 262144);
    DivModUnique(cp, (x - 0xF0) * 64 + (y - 0x80), low, 4096);
    DivModUnique((x - 0xF0) * 64 + (y - 0x80), x - 0xF0, y - 0x80, 64);
    DivModUnique(cp, (x - 0xF0) * 4096 + (y - 0x80) * 64 + (z - 0x80), w - 0x80, 64);
    DivModUnique((x - 0xF0) * 4096 + (y - 0x80) * 64 + (z - 0x80), (x - 0xF0) * 64 + (y - 0x80), z - 0x80, 64);
  }

  /** Euclidean division is determined by quotient and remainder. */
  lemma DivModUnique(n: int, q: int, r: int, d: int)
    requires 0 < d && 0 <= r < d && n == q * d + r
    ensures n / d == q && n % d == r
  {
    var k := q - n / d;
    assert k * d == n % d - r;
    if k > 0 {
      assert false;
    } else if k < 0 {
      assert false;
    }
  }

  /** For instance `C3 A9`, the encoding of U+00E9, decodes. */
  lemma TwoByteTextDecodes()
    ensures Utf8([0xC3, 0xA9])
  {
    EncodedIsUtf8([0xE9]);
    assert EncodeAll([0xE9]) == [0xC3, 0xA9];
  }

  /** The result of the `docker run` invocation. */
  datatype Launch =
    | Started                          // exit status 0
    | ProcessError(stderr: seq<byte>)  // CalledProcessError, with captured stderr
    | Unhandled                        // any other exception, e.g. no docker binary

  /** The classified outcome of a convergence action. */
  datatype Outcome = Created | AlreadyPresent | Failed(reason: seq<byte>)

  /** The handler of the foundation phase. `None` means the exception is not
      caught there and propagates out of the phase. */
  function Classify(l: Launch): (c: Option<Outcome>)
    ensures c.None? <==> l.Unhandled?
    ensures c == Some(Created) <==> l.Started?
    ensures c == Some(AlreadyPresent) <==>
              l.ProcessError? && exists i :: OccursAt(l.stderr, AlreadyInUse, i)
    ensures (c.Some? && c.value.Failed?) <==>
              l.ProcessError? && !exists i :: OccursAt(l.stderr, AlreadyInUse, i)
    ensures c.Some? && c.value.Failed? ==> c.value.reason == l.stderr
  {
    match l
    case Started => Some(Created)
    case ProcessError(err) =>
      ContainsIff(err, AlreadyInUse);
      if Contains(err, AlreadyInUse) then Some(AlreadyPresent) else Some(Failed(err))
    case Unhandled => None
  }

  /** The handler returns normally: the launch succeeded, or its stderr
      carries the marker, or the "other failure" branch can decode stderr
      to print it. An undecodable stderr raises UnicodeDecodeError from
      inside the handler. */
  predicate Handled(l: Launch) {
    l.Started? || (l.ProcessError? && (Contains(l.stderr, AlreadyInUse) || Utf8(l.stderr)))
  }

  /** A CalledProcessError without the marker whose stderr is not UTF-8 is
      classified Failed, but printing it raises, so the handler does not
      return normally. */
  lemma UndecodableFailureRaises(err: seq<byte>)
    requires !Contains(err, AlreadyInUse) && !Utf8(err)
    ensures Classify(ProcessError(err)) == Some(Failed(err))
    ensures !Handled(ProcessError(err))
  {
    ContainsIff(err, AlreadyInUse);
  }

  /** For instance a stderr consisting of the single byte 0xFF. */
  lemma InvalidByteRaises()
    ensures !Handled(ProcessError([0xFF]))
  {
    BadLeadByte([0xFF]);
    assert |AlreadyInUse| == 14;
  }

  /** A second run against an existing container is recognised as already
      converged, whatever else the runtime reports around the marker. */
  lemma RerunIsAlreadyPresent(before: seq<byte>, after: seq<byte>)
    ensures Classify(ProcessError(before + AlreadyInUse + after)) == Some(AlreadyPresent)
  {
    var s := before + AlreadyInUse + after;
    assert s[|before|..|before| + |AlreadyInUse|] == AlreadyInUse;
    assert OccursAt(s, AlreadyInUse, |before|);
  }
}

=== FILE: deploy.dfy ===
/** The deployment entry points: the gate, the six phases in their fixed
    order, the summary, and the process exit status. Every external call is
    an input: the probe outcomes, the `docker run` result, and whether each
    of the two file writes raised. */
module Deploy {
  import opened Wrappers
  import opened Settings
  import opened Prerequisites
  import opened Convergence
  import opened Sequencer
  import opened Topology

  /** What the outside world answers during one run. */
  datatype Environment = Environment(
    probes: seq<Probe>,        // one per required tool, in declaration order
    launch: Launch,            // the foundation's `docker run`
    skillsWrite: PhaseResult,  // writing the skills manifest
    configWrite: PhaseResult)  // writing the topology descriptor

  /** The port keys the foundation's container command interpolates. */
  const FoundationPorts: set<string> := {"neo4j_http", "neo4j_bolt"}

  /** The foundation phase raises on a missing port key, on an exception
      its handler does not catch, or when the Failed branch cannot decode
      stderr to print it; otherwise, Failed included, it returns normally. */
  function FoundationResult<S>(reg: Registry<S>, launch: Launch): (r: PhaseResult)
    ensures r.Ok? <==> FoundationPorts <= reg.ports.Keys && Handled(launch)
  {
    var c := Classify(launch);
    if !(FoundationPorts <= reg.ports.Keys) || c.None? then Raises
    else if c.value.Failed? && !Utf8(c.value.reason) then Raises
    else if launch.ProcessError? then
      ContainsIff(launch.stderr, AlreadyInUse);
      Ok
    else Ok
  }

  /** How each phase ends. The orchestration and intelligence phases only
      print; the configuration phase raises when `Assemble` finds a key
      missing, or when writing the descriptor raises; monitoring looks up
      the grafana port only. */
  function PhaseOutcome<S>(reg: Registry<S>, env: Environment, p: Phase): (r: PhaseResult) {
    match p
    case Foundation => FoundationResult(reg, env.launch)
    case Orchestration => Ok
    case Skills => env.skillsWrite
    case Intelligence => Ok
    case ApexConfig => if Resolvable(reg) then env.configWrite else Raises  // Assemble's lookups
    case Monitoring => if "grafana" in reg.ports then Ok else Raises
  }

  function PhaseOutcomes<S>(reg: Registry<S>, env: Environment): (rs: seq<PhaseResult>)
    ensures |rs| == |Phases|
    ensures forall i :: 0 <= i < |Phases| ==> rs[i] == PhaseOutcome(reg, env, Phases[i])
  {
    seq(|Phases|, i requires 0 <= i < |Phases| => PhaseOutcome(reg, env, Phases[i]))
  }

  /** The summary's port lookups; its descriptor lookups always succeed. */
  function SummaryResult<S>(reg: Registry<S>): (r: PhaseResult) {
    if "neo4j_http" in reg.ports && "grafana" in reg.ports then Ok else Raises
  }

  /** How `deploy_all` leaves: through `sys.exit`, by returning, or by an
      exception escaping it. */
  datatype Exit = Exited(status: int) | Returned(success: bool) | Raised

  datatype Report = Report(
    gate: Verdict,                     // the prerequisite gate's verdict
    run: Run,                          // the sequencer's final state and trace
    foundation: Option<Outcome>,       // the classified container launch, if classified
    descriptor: Option<Descriptor>,    // the configuration phase's result, if it returned
    exit: Exit)

  /** `deploy_all`. */
  function DeployAll<S>(reg: Registry<S>, env: Environment): (rep: Report)
    requires |env.probes| == |RequiredTools|
    ensures rep.gate == Gate(RequiredTools, env.probes)
    ensures rep.run == Sequence(AllResponded(env.probes), PhaseOutcomes(reg, env))
    ensures rep.exit.Raised? <==> AnyUncaught(env.probes)
    ensures rep.exit.Exited? <==>
              !AnyUncaught(env.probes) && Missing(RequiredTools, env.probes) != []
    ensures rep.exit.Exited? ==> rep.exit.status == 1
    ensures rep.exit == Returned(true) <==> rep.run.final.Completed?
    ensures rep.descriptor.Some? <==>
              4 < |rep.run.executed| && Resolvable(reg) && env.configWrite.Ok?
    ensures rep.descriptor.Some? ==> rep.descriptor == Assemble(reg)
    ensures rep.foundation.Some? ==> 0 < |rep.run.executed| && rep.foundation == Classify(env.launch)
  {
    var gate := Gate(RequiredTools, env.probes);
    GatePassesIffAllResponded(RequiredTools, env.probes);
    var results := PhaseOutcomes(reg, env);
    var run := Sequence(gate == Checked(true, []), results);
    var foundation :=
      if 0 < |run.executed| && FoundationPorts <= reg.ports.Keys then Classify(env.launch) else None;
    var descriptor :=
      if 4 < |run.executed| && env.configWrite.Ok? then Assemble(reg) else None;
    var exit :=
      if gate.Crashed? then Raised
      else if run.final.GateRejected? then Exited(1)
      else if run.final.Completed? then Returned(SummaryResult(reg).Ok?)
      else Returned(false);
    SummaryFollowsPhases(reg, env);
    Report(gate, run, foundation, descriptor, exit)
  }

  /** A tool that does not respond stops the run before any phase runs or
      any container is launched: a caught failure exits with status 1, an
      uncaught exception escapes; either way `main` ends with status 1. */
  lemma GateBlocksEveryPhase<S>(reg: Registry<S>, env: Environment)
    requires |env.probes| == |RequiredTools|
    requires !AllResponded(env.probes)
    ensures var rep := DeployAll(reg, env);
            && rep.exit == (if AnyUncaught(env.probes) then Raised else Exited(1))
            && rep.run.executed == []
            && rep.foundation.None?
            && rep.descriptor.None?
    ensures Main(reg, env) == 1
  {
  }

  /** Phases run in declaration order: the k-th phase to run is Phases[k]. */
  lemma PhasesRunInOrder<S>(reg: Registry<S>, env: Environment)
    requires |env.probes| == |RequiredTools|
    ensures var ran := DeployAll(reg, env).run.executed;
            |ran| <= |Phases| && forall k :: 0 <= k < |ran| ==> ran[k] == k
  {
  }

  /** The run aborts at the first phase that raises; no later phase runs
      and `deploy_all` returns false. */
  lemma AbortOnFirstRaise<S>(reg: Registry<S>, env: Environment, k: nat)
    requires |env.probes| == |RequiredTools|
    requires AllResponded(env.probes)
    requires k < |Phases| && PhaseOutcome(reg, env, Phases[k]).Raises?
    requires forall j :: 0 <= j < k ==> PhaseOutcome(reg, env, Phases[j]).Ok?
    ensures var rep := DeployAll(reg, env);
            && rep.run.final == Aborted(k)
            && rep.run.executed == Indices(k + 1)
            && rep.exit == Returned(false)
  {
    var rs := PhaseOutcomes(reg, env);
    AbortAtFirstRaise(rs, k);
  }

  /** `deploy_all` returns true exactly when the gate passes and all six
      phases return normally. */
  lemma SucceedsIffAllPhasesOk<S>(reg: Registry<S>, env: Environment)
    requires |env.probes| == |RequiredTools|
    ensures DeployAll(reg, env).exit == Returned(true) <==>
              AllResponded(env.probes)
              && forall j :: 0 <= j < |Phases| ==> PhaseOutcome(reg, env, Phases[j]).Ok?
  {
    var rs := PhaseOutcomes(reg, env);
    assert AllOk(rs, 0, |rs|) <==> forall j :: 0 <= j < |Phases| ==> PhaseOutcome(reg, env, Phases[j]).Ok?;
  }

  /** A Failed container launch does not abort the sequence: it is
      classified, reported, and the orchestration phase still runs. */
  lemma FailedLaunchDoesNotAbort<S>(reg: Registry<S>, env: Environment)
    requires |env.probes| == |RequiredTools|
    requires AllResponded(env.probes)
    requires FoundationPorts <= reg.ports.Keys
    requires env.launch.ProcessError? && !Contains(env.launch.stderr, AlreadyInUse)
    requires Utf8(env.launch.stderr)
    ensures var rep := DeployAll(reg, env);
            && rep.foundation == Some(Failed(env.launch.stderr))
            && |rep.run.executed| >= 2
  {
    ContainsIff(env.launch.stderr, AlreadyInUse);
    var rs := PhaseOutcomes(reg, env);
    assert rs[0].Ok? && rs[1].Ok?;
  }

  /** Re-running is safe: whatever the container launch reports, as long
      as the foundation's handler catches it, the run takes the same course
      and ends the same way. */
  lemma LaunchDoesNotSteer<S>(reg: Registry<S>, env: Environment, launch: Launch)
    requires |env.probes| == |RequiredTools|
    requires Handled(env.launch) && Handled(launch)
    ensures var a := DeployAll(reg, env);
            var b := DeployAll(reg, env.(launch := launch));
            a.run == b.run && a.exit == b.exit && a.descriptor == b.descriptor
  {
    var other := env.(launch := launch);
    assert FoundationResult(reg, env.launch) == FoundationResult(reg, launch);
    assert PhaseOutcomes(reg, env) == PhaseOutcomes(reg, other);
  }

  /** When every key the run looks up is present, the run succeeds exactly
      when every tool answers, the container launch is caught by its
      handler, and both file writes succeed. */
  lemma ResolvedRunSucceedsIff<S>(reg: Registry<S>, env: Environment)
    requires |env.probes| == |RequiredTools|
    requires Resolvable(reg)
    ensures Main(reg, env) == 0 <==>
              && AllResponded(env.probes)
              && Handled(env.launch)
              && env.skillsWrite.Ok?
              && env.configWrite.Ok?
  {
    SucceedsIffAllPhasesOk(reg, env);
    ResolvedPhasesOkIff(reg, env);
  }

  lemma ResolvedPhasesOkIff<S>(reg: Registry<S>, env: Environment)
    requires Resolvable(reg)
    ensures (forall j :: 0 <= j < |Phases| ==> PhaseOutcome(reg, env, Phases[j]).Ok?) <==>
              Handled(env.launch) && env.skillsWrite.Ok? && env.configWrite.Ok?
  {
    assert PhaseOutcome(reg, env, Phases[0]).Ok? <==> Handled(env.launch);
    assert PhaseOutcome(reg, env, Phases[2]) == env.skillsWrite;
    assert PhaseOutcome(reg, env, Phases[4]) == env.configWrite;
  }

  /** The registry the architect is built with has every key the run looks
      up, so only the environment can make the run fail. */
  lemma SourceRunSucceedsIff(env: Environment)
    requires |env.probes| == |RequiredTools|
    ensures Main(SourceRegistry, env) == 0 <==>
              && AllResponded(env.probes)
              && Handled(env.launch)
              && env.skillsWrite.Ok?
              && env.configWrite.Ok?
  {
    SourcePorts();
    ResolvedRunSucceedsIff(SourceRegistry, env);
  }

  /** A launch exception the foundation's handler does not catch, or one
      whose stderr the handler cannot decode, stops the run in the first
      phase; `main` exits with status 1. */
  lemma UncaughtLaunchStopsRun<S>(reg: Registry<S>, env: Environment)
    requires |env.probes| == |RequiredTools|
    requires AllResponded(env.probes)
    requires !Handled(env.launch)
    ensures DeployAll(reg, env).run == Run(Aborted(0), [0])
    ensures Main(reg, env) == 1
  {
    AbortOnFirstRaise(reg, env, 0);
  }

  /** The summary cannot fail once all six phases returned: the foundation
      phase already looked up `neo4j_http` and monitoring `grafana`. */
  lemma SummaryFollowsPhases<S>(reg: Registry<S>, env: Environment)
    ensures AllOk(PhaseOutcomes(reg, env), 0, |Phases|) ==> SummaryResult(reg).Ok?
  {
    var rs := PhaseOutcomes(reg, env);
    if AllOk(rs, 0, |Phases|) {
      assert rs[0] == FoundationResult(reg, env.launch);
      assert rs[5].Ok?;
    }
  }

  /** `main`: exit status 0 exactly when `deploy_all` returned true. */
  function Main<S>(reg: Registry<S>, env: Environment): (status: int)
    requires |env.probes| == |RequiredTools|
    ensures status == 0 || status == 1
    ensures status == 0 <==> DeployAll(reg, env).exit == Returned(true)
  {
    match DeployAll(reg, env).exit
    case Exited(code) => code
    case Returned(success) => if success then 0 else 1
    case Raised => 1  // the interpreter's status for an uncaught exception
  }
}

=== FILE: prerequisites.dfy ===
/** The prerequisite gate: every required tool is probed with `--version`
    and the labels of the tools that did not answer are collected. */
module Prerequisites {

  /** A required tool: the command that is probed and its human label. */
  datatype Tool = Tool(command: string, name: string)

  /** The outcome of one `<command> --version` probe. */
  datatype Probe =
    | Responded        // exited with status 0
    | ExitedNonZero    // CalledProcessError
    | NotFound         // FileNotFoundError
    | OtherOSError     // any other OSError, e.g. PermissionError: not caught

  /** Both exceptions the probe catches count as a missing tool. */
  predicate ProbeFailed(p: Probe) {
    p.ExitedNonZero? || p.NotFound?
  }

  /** The required tools, in declaration order. */
  const RequiredTools: seq<Tool> := [
    Tool("docker", "Docker"),
    Tool("docker-compose", "Docker Compose"),
    Tool("python3", "Python 3.9+"),
    Tool("npm", "Node.js/npm"),
    Tool("git", "Git")
  ]

  /** Some probe raised an exception the gate does not catch. */
  predicate AnyUncaught(probes: seq<Probe>) {
    exists i :: 0 <= i < |probes| && probes[i].OtherOSError?
  }

  /** Every probe answered. */
  predicate AllResponded(probes: seq<Probe>) {
    forall i :: 0 <= i < |probes| ==> probes[i].Responded?
  }

  /** What the gate does: it finishes with its verdict and the missing
      labels, or an uncaught exception escapes at the probe of tool `at`. */
  datatype Verdict = Checked(ok: bool, missing: seq<string>) | Crashed(at: nat)

  /** The indices below `n` whose probe failed, in increasing order: every
      one of them and nothing else. */
  function FailedBelow(probes: seq<Probe>, n: nat): (ix: seq<nat>)
    requires n <= |probes|
    ensures forall k :: 0 <= k < |ix| ==> ix[k] < n && ProbeFailed(probes[ix[k]])
    ensures forall k, l :: 0 <= k < l < |ix| ==> ix[k] < ix[l]
    ensures forall i :: 0 <= i < n && ProbeFailed(probes[i]) ==> i in ix
  {
    if n == 0 then []
    else FailedBelow(probes, n - 1) + (if ProbeFailed(probes[n - 1]) then [n - 1] else [])
  }

  /** The labels of the tools at the given indices. */
  function LabelsAt(tools: seq<Tool>, ix: seq<nat>): (labels: seq<string>)
    requires forall k :: 0 <= k < |ix| ==> ix[k] < |tools|
  {
    seq(|ix|, k requires 0 <= k < |ix| => tools[ix[k]].name)
  }

  lemma LabelsAtAppend(tools: seq<Tool>, ix: seq<nat>, i: nat)
    requires forall k :: 0 <= k < |ix| ==> ix[k] < |tools|
    requires i < |tools|
    ensures LabelsAt(tools, ix + [i]) == LabelsAt(tools, ix) + [tools[i].name]
  {
  }

  /** The labels of all failed probes, in the tools' declaration order. */
  function Missing(tools: seq<Tool>, probes: seq<Probe>): (labels: seq<string>)
    requires |probes| == |tools|
  {
    LabelsAt(tools, FailedBelow(probes, |probes|))
  }

  /** The gate passes exactly when every probe answered. */
  lemma NoneMissingIffAllResponded(tools: seq<Tool>, probes: seq<Probe>)
    requires |probes| == |tools|
    ensures Missing(tools, probes) == [] <==> forall i :: 0 <= i < |probes| ==> !ProbeFailed(probes[i])
  {
    var ix := FailedBelow(probes, |probes|);
    if ix != [] {
      assert ProbeFailed(probes[ix[0]]);
    }
  }

  /** The index of the first probe at or after `from` that raised an
      uncaught exception, or `|probes|` when there is none. */
  function FirstUncaught(probes: seq<Probe>, from: nat): (k: nat)
    requires from <= |probes|
    ensures from <= k <= |probes|
    ensures k < |probes| ==> probes[k].OtherOSError?
    ensures forall j :: from <= j < k ==> !probes[j].OtherOSError?
    decreases |probes| - from
  {
    if from == |probes| || probes[from].OtherOSError? then from
    else FirstUncaught(probes, from + 1)
  }

  /** The gate's verdict, stated without the loop: a crash at the first
      uncaught exception, otherwise the missing labels and whether every
      probe responded. */
  function Gate(tools: seq<Tool>, probes: seq<Probe>): (v: Verdict)
    requires |probes| == |tools|
    ensures v.Crashed? <==> AnyUncaught(probes)
    ensures v.Crashed? ==>
              v.at < |probes| && probes[v.at].OtherOSError?
              && forall j :: 0 <= j < v.at ==> !probes[j].OtherOSError?
    ensures v.Checked? ==> v.missing == Missing(tools, probes)
    ensures v.Checked? ==> (v.ok <==> v.missing == [])
    ensures v.Checked? ==> (v.ok <==> AllResponded(probes))
  {
    var k := FirstUncaught(probes, 0);
    if k < |probes| then Crashed(k)
    else
      NoneMissingIffAllResponded(tools, probes);
      var missing := Missing(tools, probes);
      Checked(missing == [], missing)
  }

  /** The gate crashes at any probe that raises an uncaught exception with
      none before it. */
  lemma GateCrashesAt(tools: seq<Tool>, probes: seq<Probe>, k: nat)
    requires |probes| == |tools|
    requires k < |probes| && probes[k].OtherOSError?
    requires forall j :: 0 <= j < k ==> !probes[j].OtherOSError?
    ensures Gate(tools, probes) == Crashed(k)
  {
  }

  /** Without an uncaught exception the gate reports the missing labels. */
  lemma GateChecks(tools: seq<Tool>, probes: seq<Probe>)
    requires |probes| == |tools|
    requires forall j :: 0 <= j < |probes| ==> !probes[j].OtherOSError?
    ensures Gate(tools, probes) ==
              Checked(Missing(tools, probes) == [], Missing(tools, probes))
  {
  }

  /** The gate passes, i.e. it neither crashes nor finds a tool missing,
      exactly when every probe responded. */
  lemma GatePassesIffAllResponded(tools: seq<Tool>, probes: seq<Probe>)
    requires |probes| == |tools|
    ensures Gate(tools, probes) == Checked(true, []) <==> AllResponded(probes)
  {
  }

  /** The probing loop. Caught failures append their label and the loop
      goes on, so all missing tools are listed together; an uncaught
      exception ends the loop at that tool. Without one, the verdict is true
      exactly when nothing is missing, i.e. when every probe responded. */
  method CheckPrerequisites(tools: seq<Tool>, probes: seq<Probe>) returns (v: Verdict)
    requires |probes| == |tools|
    ensures v.Crashed? <==> AnyUncaught(probes)
    ensures v.Crashed? ==>
              v.at < |probes| && probes[v.at].OtherOSError?
              && forall j :: 0 <= j < v.at ==> !probes[j].OtherOSError?
    ensures v.Checked? ==> v.missing == Missing(tools, probes)
    ensures v.Checked? ==> (v.ok <==> v.missing == [])
    ensures v.Checked? ==> (v.ok <==> AllResponded(probes))
    ensures v == Gate(tools, probes)
  {
    var missing := [];
    var i := 0;
    while i < |tools|
      invariant i <= |tools|
      invariant forall j :: 0 <= j < i ==> !probes[j].OtherOSError?
      invariant missing == LabelsAt(tools, FailedBelow(probes, i))
    {
      if probes[i].OtherOSError? {
        GateCrashesAt(tools, probes, i);
        return Crashed(i);
      }
      if ProbeFailed(probes[i]) {
        LabelsAtAppend(tools, FailedBelow(probes, i), i);
        missing := missing + [tools[i].name];
      }
      i := i + 1;
    }
    GateChecks(tools, probes);
    v := Checked(missing == [], missing);
  }

  /** The label of every failed tool is listed, not only the first, and
      nothing else is. */
  lemma EveryFailureListed(tools: seq<Tool>, probes: seq<Probe>)
    requires |probes| == |tools|
    ensures forall i :: 0 <= i < |probes| && ProbeFailed(probes[i]) ==> tools[i].name in Missing(tools, probes)
    ensures forall x :: x in Missing(tools, probes) ==>
              exists i :: 0 <= i < |probes| && ProbeFailed(probes[i]) && tools[i].name == x
  {
    var ix := FailedBelow(probes, |probes|);
    var m := Missing(tools, probes);
    forall i | 0 <= i < |probes| && ProbeFailed(probes[i])
      ensures tools[i].name in m
    {
      var k :| 0 <= k < |ix| && ix[k] == i;
      assert m[k] == tools[i].name;
    }
    forall x | x in m
      ensures exists i :: 0 <= i < |probes| && ProbeFailed(probes[i]) && tools[i].name == x
    {
      var k :| 0 <= k < |m| && m[k] == x;
      assert ProbeFailed(probes[ix[k]]) && tools[ix[k]].name == x;
    }
  }

  /** The missing labels appear in declaration order: the k-th missing label
      belongs to a tool declared strictly before that of the (k+1)-th. */
  lemma MissingInDeclarationOrder(tools: seq<Tool>, probes: seq<Probe>)
    requires |probes| == |tools|
    ensures exists ix: seq<nat> ::
              |ix| == |Missing(tools, probes)|
              && (forall k :: 0 <= k < |ix| ==> ix[k] < |tools| && ProbeFailed(probes[ix[k]]))
              && (forall k :: 0 <= k < |ix| ==> Missing(tools, probes)[k] == tools[ix[k]].name)
              && (forall k, l :: 0 <= k < l < |ix| ==> ix[k] < ix[l])
  {
    var ix := FailedBelow(probes, |probes|);
    assert |ix| == |Missing(tools, probes)|;
  }
}

=== FILE: sequencer.dfy ===
/** The phase sequencer: a state machine that runs an ordered list of phases,
    one at a time, and stops at the first phase that raises. */
module Sequencer {

  /** How one phase ended: it returned normally, or it raised. */
  datatype PhaseResult = Ok | Raises

  datatype State =
    | GateRejected          // the prerequisite gate failed; no phase ran
    | Running(phase: nat)   // about to run the phase with this index
    | Completed
    | Aborted(phase: nat)   // the phase with this index raised

  /** The final state and the indices of the phases that ran, in the order
      they ran. */
  datatype Run = Run(final: State, executed: seq<nat>)

  /** The first state, decided by the gate's verdict before any phase. */
  function Begin(gateOk: bool, count: nat): (st: State) {
    if !gateOk then GateRejected
    else if count == 0 then Completed
    else Running(0)
  }

  /** The transition out of Running(i) once phase `i` of `count` has ended. */
  function Step(i: nat, count: nat, r: PhaseResult): (st: State)
    requires i < count
  {
    if r.Raises? then Aborted(i)
    else if i + 1 == count then Completed
    else Running(i + 1)
  }

  /** Every phase in [lo, hi) returned normally. */
  ghost predicate AllOk(results: seq<PhaseResult>, lo: nat, hi: nat)
    requires lo <= hi <= |results|
  {
    forall j :: lo <= j < hi ==> results[j].Ok?
  }

  /** Runs the machine from Running(i) until it stops. */
  function Drive(results: seq<PhaseResult>, i: nat): (run: Run)
    requires i < |results|
    ensures run.final.Completed? || run.final.Aborted?
    ensures run.final.Completed? <==> AllOk(results, i, |results|)
    ensures run.final.Aborted? ==>
              i <= run.final.phase < |results|
              && results[run.final.phase].Raises?
              && AllOk(results, i, run.final.phase)
    ensures |run.executed| == (if run.final.Aborted? then run.final.phase + 1 else |results|) - i
    ensures forall k :: 0 <= k < |run.executed| ==> run.executed[k] == i + k
    decreases |results| - i
  {
    var st := Step(i, |results|, results[i]);
    if st.Running? then
      var rest := Drive(results, st.phase);
      Run(rest.final, [i] + rest.executed)
    else
      Run(st, [i])
  }

  /** The whole machine, from the gate's verdict on. */
  function Sequence(gateOk: bool, results: seq<PhaseResult>): (run: Run)
    ensures !gateOk ==> run == Run(GateRejected, [])
    ensures gateOk ==> run.final.Completed? || run.final.Aborted?
    ensures gateOk ==> (run.final.Completed? <==> AllOk(results, 0, |results|))
    ensures run.final.Completed? ==> |run.executed| == |results|
    ensures run.final.Aborted? ==>
              run.final.phase < |results|
              && results[run.final.phase].Raises?
              && AllOk(results, 0, run.final.phase)
              && |run.executed| == run.final.phase + 1
    ensures forall k :: 0 <= k < |run.executed| ==> run.executed[k] == k
  {
    var st := Begin(gateOk, |results|);
    if st.Running? then Drive(results, st.phase) else Run(st, [])
  }

  /** The aborting phase is the first phase that raises: no phase before it
      raised and no phase after it ran. */
  lemma AbortAtFirstRaise(results: seq<PhaseResult>, k: nat)
    requires k < |results| && results[k].Raises? && AllOk(results, 0, k)
    ensures Sequence(true, results) == Run(Aborted(k), Indices(k + 1))
  {
  }

  /** [0, 1, ..., n - 1]. */
  function Indices(n: nat): (ix: seq<nat>)
    ensures |ix| == n && forall k :: 0 <= k < n ==> ix[k] == k
  {
    seq(n, k requires 0 <= k < n => k)
  }
}

=== FILE: settings.dfy ===
/** The fixed configuration an architect object is built with: repository
    identifiers, credential references, the port registry and the declared
    deployment phases. */
module Settings {

  /** The registry of one run. Credential values have an arbitrary type `S`:
      nothing downstream can inspect them, so no secret can reach the
      descriptor (see Topology.CredentialOpacity). */
  datatype Registry<S> = Registry(
    repos: map<string, string>,
    config: map<string, S>,
    ports: map<string, nat>)

  /** Stands for a secret value; the concrete strings are not modelled. */
  datatype Withheld = Withheld

  /** The registry built at process start. */
  const SourceRegistry: Registry<Withheld> := Registry(
    map[
      "apex" := "APEX-NEXUS-SUPREME",
      "memory_nexus" := "master-memory-nexus",
      "memory_trinity" := "mem0-mcp-integration",
      "orchestrator" := "MCP-MASTER-OMNI-GRID",
      "engine" := "Omni_Engine",
      "intelligence" := "SUPERLUMINAL_CASE_MATRIX",
      "aspen" := "second-aspen-grove-integration",
      "forensics" := "FEDERAL-FORENSIC-REPAIR-OMNIBUS"
    ],
    map[
      "mem0_pro" := Withheld,
      "mem0_dev" := Withheld,
      "memoryplugin_global" := Withheld,
      "memoryplugin_direct" := Withheld,
      "supermemory" := Withheld
    ],
    map[
      "apex_api" := 8000,
      "memory_trinity" := 8080,
      "orchestrator" := 9000,
      "intelligence" := 9001,
      "neo4j_http" := 7474,
      "neo4j_bolt" := 7687,
      "prometheus" := 9090,
      "grafana" := 3000
    ])

  /** The six deployment phases. */
  datatype Phase = Foundation | Orchestration | Skills | Intelligence | ApexConfig | Monitoring

  /** The order in which the phases are declared and executed. */
  const Phases: seq<Phase> := [Foundation, Orchestration, Skills, Intelligence, ApexConfig, Monitoring]

  /** The declared phase names. */
  const DeploymentPhases: seq<string> :=
    ["foundation", "orchestration", "skills", "intelligence", "apex_config", "monitoring"]

  function Name(p: Phase): (s: string) {
    match p
    case Foundation => "foundation"
    case Orchestration => "orchestration"
    case Skills => "skills"
    case Intelligence => "intelligence"
    case ApexConfig => "apex_config"
    case Monitoring => "monitoring"
  }

  /** The executed order is the declared order, name by name, and every phase
      occurs exactly once. */
  lemma PhasesFollowDeclaration()
    ensures |Phases| == |DeploymentPhases|
    ensures forall i :: 0 <= i < |Phases| ==> Name(Phases[i]) == DeploymentPhases[i]
    ensures forall p: Phase :: p in Phases
    ensures forall i, j :: 0 <= i < j < |Phases| ==> Phases[i] != Phases[j]
  {
    forall p: Phase
      ensures p in Phases
    {
      match p
      case Foundation => assert Phases[0] == p;
      case Orchestration => assert Phases[1] == p;
      case Skills => assert Phases[2] == p;
      case Intelligence => assert Phases[3] == p;
      case ApexConfig => assert Phases[4] == p;
      case Monitoring => assert Phases[5] == p;
    }
  }
}

=== FILE: topology.dfy ===
/** The topology assembler: the configuration phase's descriptor, built from
    the registry alone, with endpoint URLs derived from the port registry. */
module Topology {
  import opened Wrappers
  import opened Settings

  // ---------------------------------------------------------------------
  // Decimal rendering of a port, as `f"{port}"` does it.

  predicate IsDigits(s: string) {
    forall i :: 0 <= i < |s| ==> '0' <= s[i] <= '9'
  }

  /** A non-empty digit string without a leading zero (except "0" itself). */
  predicate Canonical(s: string) {
    |s| >= 1 && IsDigits(s) && (|s| > 1 ==> s[0] != '0')
  }

  function Digit(d: nat): (c: char)
    requires d < 10
    ensures '0' <= c <= '9' && c as int - '0' as int == d
  {
    ('0' as int + d) as char
  }

  function Decimal(n: nat): (s: string)
    decreases n
  {
    if n < 10 then [Digit(n)] else Decimal(n / 10) + [Digit(n % 10)]
  }

  /** A port renders as digits without a leading zero. */
  lemma {:induction false} DecimalCanonical(n: nat)
    ensures Canonical(Decimal(n))
    decreases n
  {
    if n >= 10 {
      DecimalCanonical(n / 10);
      var s := Decimal(n / 10);
      assert Decimal(n)[0] == s[0];
      if n / 10 < 10 {
        assert s == [Digit(n / 10)];
      } else {
        DecimalCanonical(n / 100);
        assert s == Decimal(n / 100) + [Digit(n / 10 % 10)];
      }
    }
  }

  /** The number a digit string denotes. */
  function DecimalValue(s: string): (n: nat)
    requires IsDigits(s)
  {
    if |s| == 0 then 0
    else DecimalValue(s[..|s| - 1]) * 10 + (s[|s| - 1] as int - '0' as int)
  }

  /** Rendering then reading a port gives the port back. */
  lemma {:induction false} DecimalRoundTrip(n: nat)
    ensures Canonical(Decimal(n)) && DecimalValue(Decimal(n)) == n
    decreases n
  {
    DecimalCanonical(n);
    if n >= 10 {
      DecimalRoundTrip(n / 10);
      DecimalCanonical(n / 10);
      var s := Decimal(n);
      assert s[..|s| - 1] == Decimal(n / 10);
    }
  }

  lemma {:induction false} LeadingDigitPositive(s: string)
    requires |s| >= 1 && IsDigits(s) && s[0] != '0'
    ensures DecimalValue(s) >= 1
    decreases |s|
  {
    if |s| > 1 {
      LeadingDigitPositive(s[..|s| - 1]);
    }
  }

  /** Reading then rendering a canonical digit string gives it back, so every
      port has exactly one rendering. */
  lemma {:induction false} CanonicalRoundTrip(s: string)
    requires Canonical(s)
    ensures Decimal(DecimalValue(s)) == s
    decreases |s|
  {
    if |s| > 1 {
      var init := s[..|s| - 1];
      LeadingDigitPositive(init);
      CanonicalRoundTrip(init);
      var v := DecimalValue(s);
      assert v / 10 == DecimalValue(init);
      assert v % 10 == s[|s| - 1] as int - '0' as int;
      assert Decimal(v) == Decimal(v / 10) + [Digit(v % 10)];
    }
  }

  // ---------------------------------------------------------------------
  // Endpoint URLs: `scheme + "://localhost:" + decimal(port) + path`.

  const Authority: string := "://localhost:"

  /** `u` is the URL of `path` on localhost at `port` under `scheme`: it
      splits into the scheme, the authority, the canonical decimal port and
      the path. */
  ghost predicate Locates(u: string, scheme: string, port: nat, path: string) {
    var pre := |scheme| + |Authority|;
    && pre <= |u| - |path|
    && u[..|scheme|] == scheme
    && u[|scheme|..pre] == Authority
    && u[|u| - |path|..] == path
    && Canonical(u[pre..|u| - |path|])
    && DecimalValue(u[pre..|u| - |path|]) == port
  }

  function Url(scheme: string, port: nat, path: string): (u: string)
    ensures Locates(u, scheme, port, path)
  {
    DecimalCanonical(port);
    DecimalRoundTrip(port);
    var u := scheme + Authority + Decimal(port) + path;
    assert u[|scheme| + |Authority|..|u| - |path|] == Decimal(port);
    u
  }

  /** `Url` is the only string that locates a given scheme, port and path. */
  lemma LocatesOnlyUrl(u: string, scheme: string, port: nat, path: string)
    requires Locates(u, scheme, port, path)
    ensures u == Url(scheme, port, path)
  {
    var pre := |scheme| + |Authority|;
    var digits := u[pre..|u| - |path|];
    CanonicalRoundTrip(digits);
    assert u == u[..|scheme|] + u[|scheme|..pre] + digits + u[|u| - |path|..];
  }

  /** Different ports never share an endpoint. */
  lemma UrlInjective(scheme: string, p: nat, q: nat, path: string)
    requires p != q
    ensures Url(scheme, p, path) != Url(scheme, q, path)
  {
  }

  // ---------------------------------------------------------------------
  // The descriptor.

  datatype ApexLayer = ApexLayer(repo: string, role: string, apiGateway: string)
  datatype MemoryLayer = MemoryLayer(repos: seq<string>, systems: seq<string>)
  datatype OrchestrationLayer = OrchestrationLayer(repo: string, apiCount: nat, networks: seq<string>)
  datatype ExecutionLayer = ExecutionLayer(repo: string, skills: nat, workflows: string)
  datatype IntelligenceLayer = IntelligenceLayer(repos: seq<string>, capabilities: seq<string>)
  datatype GraphLayer = GraphLayer(neo4j: string, http: string, infranodus: string)

  datatype Architecture = Architecture(
    apex: ApexLayer,
    memory: MemoryLayer,
    orchestration: OrchestrationLayer,
    execution: ExecutionLayer,
    intelligence: IntelligenceLayer,
    graph: GraphLayer)

  datatype Endpoints = Endpoints(
    apexApi: string, health: string, memoryAdd: string, memorySearch: string, forensic: string)

  datatype Dashboards = Dashboards(grafana: string, prometheus: string)

  datatype Descriptor = Descriptor(
    version: string,
    mode: string,
    architecture: Architecture,
    credentials: map<string, string>,
    endpoints: Endpoints,
    monitoring: Dashboards)

  /** The repository keys and port keys the descriptor looks up; a missing
      one is a KeyError, which makes the configuration phase raise. */
  const ReposUsed: set<string> :=
    {"apex", "memory_nexus", "memory_trinity", "orchestrator", "engine", "intelligence", "forensics"}
  const PortsUsed: set<string> := {"apex_api", "neo4j_bolt", "neo4j_http", "grafana", "prometheus"}

  predicate Resolvable<S>(reg: Registry<S>) {
    ReposUsed <= reg.repos.Keys && PortsUsed <= reg.ports.Keys
  }

  /** Each layer names the repositories registered under its keys: the
      memory layer nexus then trinity, the intelligence layer the
      intelligence repository then forensics. */
  ghost predicate ReposPlaced(a: Architecture, repos: map<string, string>)
    requires ReposUsed <= repos.Keys
  {
    && a.apex.repo == repos["apex"]
    && a.memory.repos == [repos["memory_nexus"], repos["memory_trinity"]]
    && a.orchestration.repo == repos["orchestrator"]
    && a.execution.repo == repos["engine"]
    && a.intelligence.repos == [repos["intelligence"], repos["forensics"]]
  }

  /** The layer map; the two graph URLs use the bolt and http schemes. */
  function LayersOf(repos: map<string, string>, ports: map<string, nat>): (a: Architecture)
    requires ReposUsed <= repos.Keys && PortsUsed <= ports.Keys
    ensures Locates(a.apex.apiGateway, "http", ports["apex_api"], "")
    ensures Locates(a.graph.neo4j, "bolt", ports["neo4j_bolt"], "")
    ensures Locates(a.graph.http, "http", ports["neo4j_http"], "")
    ensures ReposPlaced(a, repos)
  {
    Architecture(
      ApexLayer(repos["apex"], "Supreme orchestrator", Url("http", ports["apex_api"], "")),
      MemoryLayer(
        [repos["memory_nexus"], repos["memory_trinity"]],
        ["MemoryPlugin (2 buckets)", "Supermemory (<300ms)", "Mem0 (2 accounts)"]),
      OrchestrationLayer(repos["orchestrator"], 25, ["Aspen Grove"]),
      ExecutionLayer(repos["engine"], 50, "advanced"),
      IntelligenceLayer(
        [repos["intelligence"], repos["forensics"]],
        ["forensics", "patterns", "case_matrix"]),
      GraphLayer(
        Url("bolt", ports["neo4j_bolt"], ""),
        Url("http", ports["neo4j_http"], ""),
        "enabled"))
  }

  /** The API endpoints, all served on the gateway port. */
  function EndpointsOf(api: nat): (e: Endpoints)
    ensures Locates(e.apexApi, "http", api, "")
    ensures Locates(e.health, "http", api, "/api/v1/health")
    ensures Locates(e.memoryAdd, "http", api, "/api/v1/memory/add")
    ensures Locates(e.memorySearch, "http", api, "/api/v1/memory/search")
    ensures Locates(e.forensic, "http", api, "/api/v1/case/forensic")
  {
    Endpoints(
      Url("http", api, ""),
      Url("http", api, "/api/v1/health"),
      Url("http", api, "/api/v1/memory/add"),
      Url("http", api, "/api/v1/memory/search"),
      Url("http", api, "/api/v1/case/forensic"))
  }

  function DashboardsOf(grafana: nat, prometheus: nat): (m: Dashboards)
    ensures Locates(m.grafana, "http", grafana, "")
    ensures Locates(m.prometheus, "http", prometheus, "")
  {
    Dashboards(Url("http", grafana, ""), Url("http", prometheus, ""))
  }

  /** One entry per declared credential, recording presence only. */
  function CredentialsOf<S>(config: map<string, S>): (c: map<string, string>)
    ensures c.Keys == config.Keys
    ensures forall name :: name in c ==> c[name] == "configured"
  {
    map name | name in config.Keys :: "configured"
  }

  /** Every URL of the descriptor is derived from the port registry. */
  ghost predicate EndpointsDerived(d: Descriptor, ports: map<string, nat>)
    requires PortsUsed <= ports.Keys
  {
    var api := ports["apex_api"];
    && Locates(d.architecture.apex.apiGateway, "http", api, "")
    && Locates(d.architecture.graph.neo4j, "bolt", ports["neo4j_bolt"], "")
    && Locates(d.architecture.graph.http, "http", ports["neo4j_http"], "")
    && Locates(d.endpoints.apexApi, "http", api, "")
    && Locates(d.endpoints.health, "http", api, "/api/v1/health")
    && Locates(d.endpoints.memoryAdd, "http", api, "/api/v1/memory/add")
    && Locates(d.endpoints.memorySearch, "http", api, "/api/v1/memory/search")
    && Locates(d.endpoints.forensic, "http", api, "/api/v1/case/forensic")
    && Locates(d.monitoring.grafana, "http", ports["grafana"], "")
    && Locates(d.monitoring.prometheus, "http", ports["prometheus"], "")
  }

  /** The credential entries record presence only. */
  ghost predicate CredentialsRecorded<S>(d: Descriptor, config: map<string, S>) {
    && d.credentials.Keys == config.Keys
    && forall name :: name in d.credentials ==> d.credentials[name] == "configured"
  }

  /** The configuration phase's descriptor; `None` when a looked-up key is
      absent from the registry. */
  function Assemble<S>(reg: Registry<S>): (d: Option<Descriptor>)
    ensures d.Some? <==> Resolvable(reg)
    ensures d.Some? ==> EndpointsDerived(d.value, reg.ports)
    ensures d.Some? ==> CredentialsRecorded(d.value, reg.config)
    ensures d.Some? ==> ReposPlaced(d.value.architecture, reg.repos)
    ensures d.Some? ==> d.value.version == "1.0.0" && d.value.mode == "supreme"
  {
    if !Resolvable(reg) then None
    else
      var ports := reg.ports;
      Some(Descriptor(
        "1.0.0",
        "supreme",
        LayersOf(reg.repos, ports),
        CredentialsOf(reg.config),
        EndpointsOf(ports["apex_api"]),
        DashboardsOf(ports["grafana"], ports["prometheus"])))
  }

  /** Credential opacity: the descriptor depends on the credential names
      only. Two registries that differ in their secret values, even in the
      type of those values, yield the same descriptor. */
  lemma CredentialOpacity<S, T>(a: Registry<S>, b: Registry<T>)
    requires a.repos == b.repos && a.ports == b.ports && a.config.Keys == b.config.Keys
    ensures Assemble(a) == Assemble(b)
  {
  }

  lemma SourcePorts()
    ensures Resolvable(SourceRegistry)
    ensures var ports := SourceRegistry.ports;
            && ports["apex_api"] == 8000 && ports["neo4j_bolt"] == 7687 && ports["neo4j_http"] == 7474
            && ports["grafana"] == 3000 && ports["prometheus"] == 9090
  {
  }

  /** The gateway endpoints of the registry the architect is built with,
      read off the derivation contract of `Assemble`. */
  lemma SourceGatewayEndpoints()
    ensures var d := Assemble(SourceRegistry);
            && d.Some?
            && d.value.architecture.apex.apiGateway == "http://localhost:8000"
            && d.value.endpoints.health == "http://localhost:8000/api/v1/health"
  {
    SourcePorts();
    var d := Assemble(SourceRegistry).value;
    LocatesOnlyUrl(d.architecture.apex.apiGateway, "http", 8000, "");
    LocatesOnlyUrl(d.endpoints.health, "http", 8000, "/api/v1/health");
    ApiPortSpelling();
    UrlSpelling("http", 8000, "8000", "");
    UrlSpelling("http", 8000, "8000", "/api/v1/health");
    ApiSpellings();
  }

  /** The graph endpoints of the registry the architect is built with: the
      bolt endpoint uses the bolt scheme. */
  lemma SourceGraphEndpoints()
    ensures var d := Assemble(SourceRegistry);
            && d.Some?
            && d.value.architecture.graph.neo4j == "bolt://localhost:7687"
            && d.value.architecture.graph.http == "http://localhost:7474"
  {
    SourcePorts();
    var d := Assemble(SourceRegistry).value;
    LocatesOnlyUrl(d.architecture.graph.neo4j, "bolt", 7687, "");
    LocatesOnlyUrl(d.architecture.graph.http, "http", 7474, "");
    GraphPortSpellings();
    UrlSpelling("bolt", 7687, "7687", "");
    UrlSpelling("http", 7474, "7474", "");
    GraphSpellings();
  }

  /** The dashboard endpoints of the registry the architect is built with. */
  lemma SourceDashboards()
    ensures var d := Assemble(SourceRegistry);
            && d.Some?
            && d.value.monitoring.grafana == "http://localhost:3000"
            && d.value.monitoring.prometheus == "http://localhost:9090"
  {
    SourcePorts();
    var d := Assemble(SourceRegistry).value;
    LocatesOnlyUrl(d.monitoring.grafana, "http", 3000, "");
    LocatesOnlyUrl(d.monitoring.prometheus, "http", 9090, "");
    DashboardPortSpellings();
    UrlSpelling("http", 3000, "3000", "");
    UrlSpelling("http", 9090, "9090", "");
    DashboardSpellings();
  }

  lemma ApiPortSpelling()
    ensures Decimal(8000) == "8000"
  {
  }

  lemma GraphPortSpellings()
    ensures Decimal(7687) == "7687" && Decimal(7474) == "7474"
  {
  }

  lemma DashboardPortSpellings()
    ensures Decimal(3000) == "3000" && Decimal(9090) == "9090"
  {
  }

  lemma UrlSpelling(scheme: string, port: nat, digits: string, path: string)
    requires Decimal(port) == digits
    ensures Url(scheme, port, path) == scheme + Authority + digits + path
  {
  }

  lemma ApiSpellings()
    ensures "http" + Authority + "8000" + "" == "http://localhost:8000"
    ensures "http" + Authority + "8000" + "/api/v1/health" == "http://localhost:8000/api/v1/health"
  {
  }

  lemma GraphSpellings()
    ensures "bolt" + Authority + "7687" + "" == "bolt://localhost:7687"
    ensures "http" + Authority + "7474" + "" == "http://localhost:7474"
  {
  }

  lemma DashboardSpellings()
    ensures "http" + Authority + "3000" + "" == "http://localhost:3000"
    ensures "http" + Authority + "9090" + "" == "http://localhost:9090"
  {
  }

  /** The credential entries of the registry the architect is built with:
      the five declared names, each recorded as configured. */
  lemma SourceCredentials()
    ensures var d := Assemble(SourceRegistry);
            && d.Some?
            && d.value.credentials.Keys
               == {"mem0_pro", "mem0_dev", "memoryplugin_global", "memoryplugin_direct", "supermemory"}
            && forall name :: name in d.value.credentials ==> d.value.credentials[name] == "configured"
  {
    SourcePorts();
    SourceCredentialNames();
  }

  lemma SourceCredentialNames()
    ensures SourceRegistry.config.Keys
            == {"mem0_pro", "mem0_dev", "memoryplugin_global", "memoryplugin_direct", "supermemory"}
  {
  }
}

=== FILE: wrappers.dfy ===
/** The optional-value datatype used throughout the model. */
module Wrappers {

  datatype Option<+T> = None | Some(value: T)
}
